=== FILE: README.md ===
# netblockr in Dafny

netblockr classifies IPv4 addresses by netblock. A caller builds a table from four parallel
columns: a block label such as `10.0.0.0/8`, the base address as dotted-decimal text, the
prefix length, and a description. The caller then sets the probe order, a list of prefix lengths
to try. Each address is looked up by masking it with each prefix length in that order and
checking the masked value against an exact-match index. The answer is the label and description
of the first record that matches, or `NotFound` in both columns.

The model has four modules:

- `Masks` (`masks.dfy`): the constant table `maskval_ipv4` of the 33 IPv4 prefix masks, in the
  prefix notation of CIDR (section 3.1 of RFC 4632). `Network(addr, m)` is `addr & Mask(m)`.
  Lemmas state the bit structure of the masks.
- `Netblock` (`netblock.dfy`): `struct nbTable` as a value `Table`, with the five record vectors,
  the probe order `uniqueMasks` and the index `map<IndexKey, int>`.
  - The build loop, with the index value corrected, is the fold `BuildPrefix`; the loop as written
    is `AsWritten.BuildAsWritten`.
  - The lookup loop's answer for one address is `Probe` / `Classify`.
  - Lemmas state what the build produces, that the index stays sound, and which record the
    lookup returns.
- `NbTables` (`nbtable.dfy`): the class `NbTable`, whose seven fields are the struct's members.
  - Its constructors and its methods `SetMaskOrder` and `LookupIPaddrs` are the exported
    operations, written as the loops the source runs. `BuildAsWritten` is the build loop as the
    source writes it; `Build` is the same loop with the index value corrected (see Findings).
  - `GetNetblockTable` is the dump.
  - `Build`, `SetMaskOrder`, `GetNetblockTable` and `LookupIPaddrs` are proved against the `Netblock`
    functions; `BuildAsWritten` is proved against `AsWritten.BuildAsWritten`.
  - `SessionAsWritten` and `Session` run the callers' sequence on the object: build, set the
    probe order, look addresses up.
- `AsWritten` (`aswritten.dfy`): the build loop exactly as the source writes it, with the loop
  counter stored as the index value. It holds the facts and concrete counterexamples of the
  finding below.

The build uses `std::map::insert`, which leaves an existing key alone, so the first insert for a
given masked base wins (`Append`, `BuildIndex`, `AsWrittenIndex`). In the model's build the value
kept names the first parsed entry with that base. In the loop as written it is that entry's input
position. After a skipped entry that position can name a later record, of a different block
(`AsWritten.SkippedEntryMisdirectsLookup`, `AsWritten.SkippedEntryHidesBlock`).

## Model

| member | source | states |
|---|---|---|
| Masks.Network | src/netblockr.cpp:50 | an address masked with `maskval_ipv4[m]`, the network of the address under prefix length m (used again at line 118) |
| Masks.Mask | src/netblockr.cpp:12-20 | the 33 constants of maskval_ipv4, one per prefix length 0..32 |
| Masks.MaskEnds | src/netblockr.cpp:12-20 | the first table entry has no bit set and the last has all 32 bits set |
| Masks.MaskBits | src/netblockr.cpp:12-20 | bit b of the mask of prefix length m is set exactly when b is among the m most-significant positions |
| Masks.MaskComplement | src/netblockr.cpp:12-20 | each mask is the complement of the all-ones word shifted right by m, so the host bits are exactly the low 32 - m bits |
| Masks.MaskStep | src/netblockr.cpp:12-20 | each entry is the previous one plus bit 31 - m, which equals the previous one shifted right by one with the top bit set |
| Masks.MaskAbsorb | src/netblockr.cpp:12-20 | a shorter mask is contained in every longer one |
| Masks.MaskNested | src/netblockr.cpp:50 | masking with a longer prefix and then a shorter one equals masking with the shorter one; with equal lengths, masking twice is masking once |
| Netblock.Table | src/netblockr.cpp:24-29 | the members of `struct nbTable` as a value: five record vectors, the probe order and the index map |
| Netblock.Key | src/netblockr.cpp:48-50 | the index key of input i: nothing when its address does not parse, else the parsed address masked with the input's own mask |
| Netblock.ParsedPositions | src/netblockr.cpp:46-48 | the positions of the inputs whose address parses, strictly increasing and complete |
| Netblock.Append | src/netblockr.cpp:52-57 | the five push_backs of one record and an insert of (base, slot) that leaves an existing key's value alone |
| Netblock.AddEntry | src/netblockr.cpp:47-62 | one pass of the build loop: a parsed entry is masked with its own mask and appended, an unparseable one is skipped |
| Netblock.BuildPrefix | src/netblockr.cpp:46-63 | the table after the first n passes of the build loop, with the new record's position as the index value |
| Netblock.Built | src/netblockr.cpp:35-66 | the table the whole build loop returns, BuildPrefix over every input |
| Netblock.AppendSound | src/netblockr.cpp:52-57 | appending a normalised record with the new record's position as the slot keeps the table consistent and its index sound |
| Netblock.BuildStepParsed | src/netblockr.cpp:48-57 | one pass over a parsed entry appends its record, masked with its own mask, and adds its key with the new record's position unless the key is present |
| Netblock.BuildStepSkipped | src/netblockr.cpp:59-62 | one pass over an entry whose address does not parse leaves the table unchanged |
| Netblock.BuildRecords | src/netblockr.cpp:46-63 | after the build the five vectors have one length, the number of parsed inputs; record k is the k-th parsed input with its masked base; the probe order is empty |
| Netblock.BuildConsistent | src/netblockr.cpp:49-55 | every stored mask is in 0..32 and every stored base has no bits outside its own mask |
| Netblock.FirstRecordStep | src/netblockr.cpp:52-57 | appending one record, with an insert that keeps an existing key, preserves "every key names the first record with that base, and every base is a key" |
| Netblock.BuildIndex | src/netblockr.cpp:57 | the built index has exactly the stored masked bases as keys; each names the first record with that base, so later duplicates of any mask are never named |
| Netblock.BuildSound | src/netblockr.cpp:46-63 | the built table is consistent and every index value is a record position whose base is the key |
| Netblock.DumpOfBuilt | src/netblockr.cpp:84-92 | the dump of a built table has one row per parsed input, in input order, with the input's label, text, mask and description, and BaseInt the masked base |
| Netblock.DumpOfBuiltAllParsed | src/netblockr.cpp:84-92 | when every address parses, row k of the dump is input k |
| Netblock.Dump | src/netblockr.cpp:84-92 | the five columns of the dump, the record vectors in record order |
| Netblock.Classify | src/netblockr.cpp:107-140 | one lookup row: NotFound in both columns for an unparseable address or when no probe is accepted, else the label and description of the record the probe loop returns |
| Netblock.Accepts | src/netblockr.cpp:118-123 | probe j succeeds when the address masked with the j-th probe mask is a key and the record it names has that same mask |
| Netblock.ProbeTarget | src/netblockr.cpp:120-121 | the record an accepted probe names: the index value of the masked address |
| Netblock.Probe | src/netblockr.cpp:117-133 | the probe loop's result is either nothing or a record position inside the vectors |
| Netblock.ProbeNone | src/netblockr.cpp:117-133 | the probe loop finds nothing exactly when no probe is accepted; a key found with another mask does not stop the search |
| Netblock.ProbeFirst | src/netblockr.cpp:117-129 | if probe q is the first accepted one, the loop returns the record q's masked address names |
| Netblock.ProbeSome | src/netblockr.cpp:117-129 | whatever the loop returns comes from the first accepted probe, and its record's mask equals that probe's mask |
| Netblock.ProbeInBlock | src/netblockr.cpp:118-125 | on a sound table the returned record's block contains the address, and that record is the one its own key names |
| Netblock.LongestMatchWhenMostSpecificFirst | src/netblockr.cpp:117-128 | with a strictly most-specific-first probe order, some record is found whenever a reachable record with a listed mask contains the address, and the found mask is at least as long |
| AsWritten.BuildAsWritten | src/netblockr.cpp:46-63 | the table after the first n passes of the build loop as written, with the input position i as the index value |
| AsWritten.AsWrittenStepParsed | src/netblockr.cpp:48-57 | one pass of the loop as written over a parsed entry appends its masked record and inserts (binIP, i) unless the key is present |
| AsWritten.AsWrittenStepSkipped | src/netblockr.cpp:59-62 | one pass of the loop as written over an unparseable entry leaves the table unchanged |
| AsWritten.SameRecords | src/netblockr.cpp:46-57 | the loop as written and the model's build produce the same record vectors and the same index keys |
| AsWritten.IndexStep | src/netblockr.cpp:57 | one pass of the loop as written keeps the index facts below |
| AsWritten.AsWrittenIndex | src/netblockr.cpp:57 | as written, each key maps to the input position of the first input with that masked base, and every parsed input's masked base is a key |
| AsWritten.AgreeWhenAllParse | src/netblockr.cpp:46-57 | when every address parses, input positions are record positions and the loop as written builds the model's table |
| AsWritten.AsWrittenSoundWhenAllParse | src/netblockr.cpp:57 | when every address parses, the table the loop as written returns is consistent and every index value names a record whose base is its key |
| AsWritten.ExampleAsWritten | src/netblockr.cpp:46-57 | on the example with one unparseable entry, the loop as written maps 10.0.0.0 to 1 and 11.0.0.0 to 2 |
| AsWritten.ExampleModel | src/netblockr.cpp:46-57 | on the same example the model's build maps 10.0.0.0 to 0 and 11.0.0.0 to 1 |
| AsWritten.SkippedEntryMisdirectsLookup | src/netblockr.cpp:57 | on the example, the table as written is consistent with its index in bounds, yet 10.1.2.3 is classified as 11.0.0.0/8 "B" |
| AsWritten.DuplicateBuilds | src/netblockr.cpp:46-57 | on entries (bad), 10.0.0.0/8 A, 10.0.0.0/16 B the index as written is {10.0.0.0 -> 1}, the record of B; the model's is {10.0.0.0 -> 0}, the record of A |
| AsWritten.DuplicateProbe | src/netblockr.cpp:117-133 | on those records with probe order [8], 10.1.2.3 is answered with A when the index names record 0 and with NotFound when it names record 1, whose mask is 16 |
| AsWritten.SkippedEntryHidesBlock | src/netblockr.cpp:57 | on that input the table as written is consistent with its index in bounds, yet 10.1.2.3, inside 10.0.0.0/8, is classified NotFound; the model's table answers A |
| AsWritten.SkippedEntryIndexOutOfBounds | src/netblockr.cpp:57 | on a two-entry input whose first address does not parse, the index as written names record 1 of a one-record table, while the model's index names record 0 |
| AsWritten.ExampleCorrected | src/netblockr.cpp:117-125 | on the model's table 10.1.2.3 is classified as 10.0.0.0/8 "A" |
| NbTables.NbTable | src/netblockr.cpp:24-29 | `struct nbTable` as an object whose seven fields are its members, updated in place by the build, SetMaskOrder and lookup |
| NbTables.NbTable.Build | src/netblockr.cpp:35-66 | the constructor's loop, storing the new record's position as the index value, leaves exactly the table BuildPrefix defines, which is consistent and has a sound index |
| NbTables.NbTable.BuildAsWritten | src/netblockr.cpp:35-66 | the constructor's loop, storing i as the index value, leaves exactly the table AsWritten.BuildAsWritten defines; its records are always consistent, and the whole table is valid when every address parses |
| NbTables.NbTable.AppendRecord | src/netblockr.cpp:52-57 | pushes one value onto each of the five vectors and inserts (binIP, slot) unless the key is present; nothing else changes; with the new record's position as the slot and a normalised base, a valid table stays valid |
| NbTables.NbTable.SetMaskOrder | src/netblockr.cpp:74-78 | accepts any table; appends the masks to the probe order and changes no other field, so two calls concatenate; a consistent table stays consistent and a valid one valid |
| AsWritten.DumpAsWritten | src/netblockr.cpp:84-92 | the dump of the table built as written equals the dump of the model's table, so DumpOfBuilt describes it too |
| NbTables.NbTable.GetNetblockTable | src/netblockr.cpp:84-92 | for any consistent table, including one built as written, the dump is the five record vectors unchanged, with equal lengths and every BaseInt normalised under its own mask |
| NbTables.NbTable.LookupIPaddrs | src/netblockr.cpp:98-146 | for any consistent table whose index values are record positions: echoes the address column; row i depends only on address i and is Classify of it; the table is not modified |
| NbTables.NbTable.LookupOne | src/netblockr.cpp:107-137 | NotFound in both columns for an unparseable address or when no probe is accepted, otherwise the label and description of the first accepted probe's record |
| NbTables.SessionAsWritten | src/netblockr.cpp:35-146 | building as the source does, setting a probe order and looking addresses up gives, row by row, the classification by the as-written table with that order, whenever its index stays inside the vectors |
| NbTables.Session | src/netblockr.cpp:35-146 | the same session on the corrected build needs no condition on the index; each row is the classification by the model's table, which is consistent and has a sound index |

## Left out

- `inet_pton(AF_INET, ...)` followed by `htonl` is the parameter `parse: string -> Option<bv32>`. It is a libc call; every property holds for any parser.
- Rcpp marshalling is not modelled: `CharacterVector`, `IntegerVector`, `as<std::string>`, `DataFrame::create`, and `XPtr` with its garbage-collection finaliser. Columns are sequences, data frames are datatypes, and the table handle is the `NbTable` object.
- `warning(...)` is not modelled. It is a diagnostic side effect; its effect (the entry is skipped, or the row is NotFound) is modelled.
- src/netblockr.h, inst/include/netblockr.h and inst/include/netblockr_RcppExports.h are not part of this model. They re-declare the mask table and the struct, or are generated glue with no behaviour of its own.
- The commented-out `Rcout` debug lines are not modelled.
- NbTables.NbTable.SetMaskOrder: requires every mask to be in 0..32. The source accepts any integer and a later lookup indexes the mask table with it unchecked, which is undefined behaviour in C++.
- NbTables.NbTable.Build and NbTables.NbTable.BuildAsWritten: require every parsed entry's mask to be in 0..32, and the other three columns to be at least as long as the address column. The source indexes both without a check.
- Index keys are wrapped in the one-field datatype `IndexKey` rather than bare `u_int` values. The order of `std::map` is never observed, so a Dafny `map` stands for it.
- Netblock.BuildPrefix: stores the position of the appended record as the index value, where line 57 stores the input position `i`; the two differ after an unparseable entry. `AsWritten.BuildAsWritten` is the fold with `i`.
- NbTables.NbTable.LookupIPaddrs and NbTables.NbTable.LookupOne: require every index value to name a record. Lines 121-125 read `nb_mask` and the other vectors at the index value without a check, which is undefined behaviour in C++ when it is past the end, as `AsWritten.SkippedEntryIndexOutOfBounds` shows can happen.
- NbTables.NbTable.Build: stores the position of the appended record (`|mask|` before the append) as the index value, where line 57 stores the input position `i`. After an unparseable entry the two differ: on the input ("bad", "10.0.0.0") the source's index is {0x0A000000 -> 1} and this constructor's is {0x0A000000 -> 0}. `NbTables.NbTable.BuildAsWritten` runs the loop as written; see Findings.
- NbTables.NbTable.AppendRecord: stores whatever slot its caller passes. `Build` passes the new record's position, which differs from line 57 after a skipped entry; `BuildAsWritten` passes `i`, as line 57 does.
- The 32-bit arithmetic is exact: masking is bitwise AND on `bv32`, and no operation overflows. Input counts are unbounded, unlike R's `int` sizes.

## Findings

| source | as written | input that shows it | evidently intended | confidence | as-written member | corrected member |
|---|---|---|---|---|---|---|
| src/netblockr.cpp:57 | the index value for a new key is `i`, the input position, while the record was appended at position `nb_mask.size() - 1`; after any skipped entry the two differ | entries ("x", "bad"), ("10.0.0.0/8", "10.0.0.0", A), ("11.0.0.0/8", "11.0.0.0", B), ("10.0.0.0/8", "10.0.0.0", C), all /8, probe order [8]: looking up 10.1.2.3 answers 11.0.0.0/8 "B"; with only the first two entries the index names a record past the end of the vectors; with ("x", "bad"), 10.0.0.0/8 A, 10.0.0.0/16 B and probe order [8], 10.1.2.3 answers NotFound | store the position of the record just appended, so every index value names a record whose base is its key | not executed | AsWritten.SkippedEntryMisdirectsLookup | Netblock.BuildSound |

=== FILE: aswritten.dfy ===
/** The build loop of nbBuildNetblockTable exactly as written: the index value it stores for a
    new key is the loop counter i, the position of the entry in the input, while the record was
    appended at position |mask| - 1. The two agree only while no entry has been skipped. */
module AsWritten {
  import opened Masks
  import opened Netblock

  /** The table after the first n passes of the loop as written (slot i). */
  function BuildAsWritten(e: Entries, parse: Parser, n: int): Table
    requires Fits(e, parse) && 0 <= n <= |e.ipAddrs|
  {
    if n == 0 then Empty else AddEntry(BuildAsWritten(e, parse, n - 1), e, parse, n - 1, n - 1)
  }

  /** The record vectors do not depend on the slot: the loop as written and the model's build
      differ in the index values only. */
  lemma {:induction false} SameRecords(e: Entries, parse: Parser, n: int)
    requires Fits(e, parse) && 0 <= n <= |e.ipAddrs|
    ensures BuildAsWritten(e, parse, n) == BuildPrefix(e, parse, n).(index := BuildAsWritten(e, parse, n).index)
    ensures BuildAsWritten(e, parse, n).index.Keys == BuildPrefix(e, parse, n).index.Keys
  {
    if n > 0 {
      SameRecords(e, parse, n - 1);
    }
  }

  /** The index after n passes of the loop as written: every key is the masked base of an input
      among the first n and its value is the input position of the first such input; every
      parsed input among the first n has its masked base in the index. */
  predicate IndexFacts(t: Table, e: Entries, parse: Parser, n: int)
    requires Fits(e, parse) && 0 <= n <= |e.ipAddrs|
  {
    && (forall key :: key in t.index ==> 0 <= t.index[key] < n && FirstWithKey(e, parse, t.index[key], key.bits))
    && (forall i :: 0 <= i < n && Key(e, parse, i).Some? ==> IndexKey(Key(e, parse, i).value) in t.index)
  }

  /** One pass of the loop as written keeps IndexFacts. */
  lemma IndexStep(t0: Table, e: Entries, parse: Parser, n: int)
    requires Fits(e, parse) && 0 < n <= |e.ipAddrs|
    requires IndexFacts(t0, e, parse, n - 1)
    ensures IndexFacts(AddEntry(t0, e, parse, n - 1, n - 1), e, parse, n)
  {
    var t := AddEntry(t0, e, parse, n - 1, n - 1);
    if Key(e, parse, n - 1).Some? {
      var base := Key(e, parse, n - 1).value;
      assert t.index == if IndexKey(base) in t0.index then t0.index else t0.index[IndexKey(base) := n - 1];
      if IndexKey(base) !in t0.index {
        forall j | 0 <= j < n - 1
          ensures Key(e, parse, j) != Some(base)
        {
          if Key(e, parse, j).Some? {
            assert IndexKey(Key(e, parse, j).value) in t0.index;
          }
        }
      }
    } else {
      assert t == t0;
    }
  }

  /** What the loop as written stores: each masked base maps to the input position of the first
      input carrying it (a later duplicate never replaces it), and every parsed input's masked
      base is a key. */
  lemma {:induction false} AsWrittenIndex(e: Entries, parse: Parser, n: int)
    requires Fits(e, parse) && 0 <= n <= |e.ipAddrs|
    ensures IndexFacts(BuildAsWritten(e, parse, n), e, parse, n)
  {
    if n > 0 {
      AsWrittenIndex(e, parse, n - 1);
      IndexStep(BuildAsWritten(e, parse, n - 1), e, parse, n);
    }
  }

  /** While every address parses, input positions are record positions and the loop as written
      builds the same table as the model. */
  lemma {:induction false} AgreeWhenAllParse(e: Entries, parse: Parser, n: int)
    requires Fits(e, parse) && 0 <= n <= |e.ipAddrs|
    requires forall i :: 0 <= i < n ==> parse(e.ipAddrs[i]).Some?
    ensures |BuildPrefix(e, parse, n).mask| == n
    ensures BuildAsWritten(e, parse, n) == BuildPrefix(e, parse, n)
  {
    if n > 0 {
      AgreeWhenAllParse(e, parse, n - 1);
    }
  }

  /** One more pass of the loop as written over a parsed entry appends its record, masked with
      its own mask, with the input position as the slot. */
  lemma AsWrittenStepParsed(e: Entries, parse: Parser, i: int, addr: bv32, t0: Table, t: Table)
    requires Fits(e, parse) && 0 <= i < |e.ipAddrs| && parse(e.ipAddrs[i]) == Some(addr)
    requires t0 == BuildAsWritten(e, parse, i)
    requires t == Append(t0, e.baseAndMask[i], e.ipAddrs[i], e.mask[i], Network(addr, e.mask[i]), e.description[i], i)
    ensures t == BuildAsWritten(e, parse, i + 1)
  {
  }

  /** One more pass of the loop as written over an entry whose address does not parse changes
      nothing. */
  lemma AsWrittenStepSkipped(e: Entries, parse: Parser, i: int, t0: Table)
    requires Fits(e, parse) && 0 <= i < |e.ipAddrs| && parse(e.ipAddrs[i]).None?
    requires t0 == BuildAsWritten(e, parse, i)
    ensures t0 == BuildAsWritten(e, parse, i + 1)
  {
  }

  /** When every address parses, the table the loop as written returns is consistent and every
      index value names a record whose base is its key. */
  lemma AsWrittenSoundWhenAllParse(e: Entries, parse: Parser)
    requires Fits(e, parse)
    requires forall i :: 0 <= i < |e.ipAddrs| ==> parse(e.ipAddrs[i]).Some?
    ensures Consistent(BuildAsWritten(e, parse, |e.ipAddrs|))
    ensures IndexSound(BuildAsWritten(e, parse, |e.ipAddrs|))
  {
    AgreeWhenAllParse(e, parse, |e.ipAddrs|);
    BuildSound(e, parse);
  }

  /** The address parser of the example below: three dotted quads, anything else fails. */
  function ExampleParse(s: string): Option<bv32>
  {
    if s == "10.0.0.0" then Some(0x0A00_0000)
    else if s == "11.0.0.0" then Some(0x0B00_0000)
    else if s == "10.1.2.3" then Some(0x0A01_0203)
    else None
  }

  /** Four entries: an unparseable one, 10.0.0.0/8 (A), 11.0.0.0/8 (B), and 10.0.0.0/8 again (C). */
  const Example: Entries := Entries(
    ["x", "10.0.0.0/8", "11.0.0.0/8", "10.0.0.0/8"],
    ["bad", "10.0.0.0", "11.0.0.0", "10.0.0.0"],
    [8, 8, 8, 8],
    ["X", "A", "B", "C"])

  /** What the example parser makes of the four address texts. */
  lemma ExampleParsed()
    ensures ExampleParse(Example.ipAddrs[0]) == None
    ensures ExampleParse(Example.ipAddrs[1]) == Some(0x0A00_0000)
    ensures ExampleParse(Example.ipAddrs[2]) == Some(0x0B00_0000)
    ensures ExampleParse(Example.ipAddrs[3]) == Some(0x0A00_0000)
  {
  }

  /** The masked keys of the example: 10.0.0.0 and 11.0.0.0 under a /8 mask. */
  lemma ExampleKeys()
    ensures Fits(Example, ExampleParse)
    ensures Key(Example, ExampleParse, 0) == None
    ensures Key(Example, ExampleParse, 1) == Some(0x0A00_0000)
    ensures Key(Example, ExampleParse, 2) == Some(0x0B00_0000)
    ensures Key(Example, ExampleParse, 3) == Some(0x0A00_0000)
  {
    ExampleParsed();
    assert Mask(8) == 0xFF00_0000;
  }

  /** The record vectors both builds produce on the example (the unparseable entry is skipped),
      with the index the given map. */
  function ExampleTable(index: map<IndexKey, int>): Table
  {
    Table(["10.0.0.0/8", "11.0.0.0/8", "10.0.0.0/8"], ["10.0.0.0", "11.0.0.0", "10.0.0.0"], [8, 8, 8],
          [0x0A00_0000, 0x0B00_0000, 0x0A00_0000], ["A", "B", "C"], [], index)
  }

  /** The loop as written maps 10.0.0.0 to 1 and 11.0.0.0 to 2, the input positions of A and B. */
  lemma ExampleAsWritten()
    ensures Fits(Example, ExampleParse)
    ensures BuildAsWritten(Example, ExampleParse, 4)
      == ExampleTable(map[IndexKey(0x0A00_0000) := 1, IndexKey(0x0B00_0000) := 2])
  {
    var e, p := Example, ExampleParse;
    ExampleKeys();
    ExampleParsed();
    var t1 := BuildAsWritten(e, p, 1);
    assert t1 == Empty;
    var t2 := BuildAsWritten(e, p, 2);
    assert t2 == Append(t1, "10.0.0.0/8", "10.0.0.0", 8, 0x0A00_0000, "A", 1);
    var t3 := BuildAsWritten(e, p, 3);
    assert t3 == Append(t2, "11.0.0.0/8", "11.0.0.0", 8, 0x0B00_0000, "B", 2);
    assert BuildAsWritten(e, p, 4) == Append(t3, "10.0.0.0/8", "10.0.0.0", 8, 0x0A00_0000, "C", 3);
  }

  /** The model's build maps 10.0.0.0 to 0 and 11.0.0.0 to 1, the record positions of A and B. */
  lemma ExampleModel()
    ensures Fits(Example, ExampleParse)
    ensures Built(Example, ExampleParse)
      == ExampleTable(map[IndexKey(0x0A00_0000) := 0, IndexKey(0x0B00_0000) := 1])
  {
    var e, p := Example, ExampleParse;
    ExampleKeys();
    ExampleParsed();
    var t1 := BuildPrefix(e, p, 1);
    assert t1 == Empty;
    var t2 := BuildPrefix(e, p, 2);
    assert t2 == Append(t1, "10.0.0.0/8", "10.0.0.0", 8, 0x0A00_0000, "A", 0);
    var t3 := BuildPrefix(e, p, 3);
    assert t3 == Append(t2, "11.0.0.0/8", "11.0.0.0", 8, 0x0B00_0000, "B", 1);
    assert BuildPrefix(e, p, 4) == Append(t3, "10.0.0.0/8", "10.0.0.0", 8, 0x0A00_0000, "C", 2);
  }

  /** Both example tables, with probe order [8], are consistent and their indexes in bounds. */
  lemma ExampleConsistent(index: map<IndexKey, int>)
    requires forall key :: key in index ==> 0 <= index[key] < 3
    ensures Consistent(ExampleTable(index).(uniqueMasks := [8]))
    ensures IndexInBounds(ExampleTable(index).(uniqueMasks := [8]))
  {
    var t := ExampleTable(index).(uniqueMasks := [8]);
    assert Mask(8) == 0xFF00_0000;
    forall k | 0 <= k < |t.mask|
      ensures 0 <= t.mask[k] <= 32 && Network(t.baseAsUint[k], t.mask[k]) == t.baseAsUint[k]
    {
      assert t.mask[k] == 8;
    }
  }

  /** With probe order [8], 10.1.2.3 is looked up under the key 10.0.0.0. */
  lemma ExampleProbe(index: map<IndexKey, int>)
    requires forall key :: key in index ==> 0 <= index[key] < 3
    requires IndexKey(0x0A00_0000) in index
    ensures Consistent(ExampleTable(index).(uniqueMasks := [8]))
    ensures IndexInBounds(ExampleTable(index).(uniqueMasks := [8]))
    ensures Classify(ExampleTable(index).(uniqueMasks := [8]), "10.1.2.3", ExampleParse)
      == (["10.0.0.0/8", "11.0.0.0/8", "10.0.0.0/8"][index[IndexKey(0x0A00_0000)]],
          ["A", "B", "C"][index[IndexKey(0x0A00_0000)]])
  {
    ExampleConsistent(index);
    var t := ExampleTable(index).(uniqueMasks := [8]);
    assert Network(0x0A01_0203, 8) == 0x0A00_0000;
    assert Accepts(t, 0x0A01_0203, 0);
  }

  /** After one skipped entry the loop as written maps 10.0.0.0 to 1, which is the record of
      11.0.0.0/8: looking up 10.1.2.3 with probe order [8] answers ("11.0.0.0/8", "B"), although
      the only blocks containing the address are 10.0.0.0/8 (A and C). */
  lemma SkippedEntryMisdirectsLookup()
    ensures Fits(Example, ExampleParse)
    ensures var t := BuildAsWritten(Example, ExampleParse, 4).(uniqueMasks := [8]);
      && Consistent(t) && IndexInBounds(t)
      && Classify(t, "10.1.2.3", ExampleParse) == ("11.0.0.0/8", "B")
  {
    ExampleAsWritten();
    ExampleProbe(map[IndexKey(0x0A00_0000) := 1, IndexKey(0x0B00_0000) := 2]);
  }

  /** On the same input the model's build names record 0 for 10.0.0.0, and the lookup answers
      ("10.0.0.0/8", "A"), the first block that contains the address. */
  lemma ExampleCorrected()
    ensures Fits(Example, ExampleParse)
    ensures var t := Built(Example, ExampleParse).(uniqueMasks := [8]);
      && Consistent(t) && IndexInBounds(t)
      && Classify(t, "10.1.2.3", ExampleParse) == ("10.0.0.0/8", "A")
  {
    ExampleModel();
    ExampleProbe(map[IndexKey(0x0A00_0000) := 0, IndexKey(0x0B00_0000) := 1]);
  }

  /** The first two entries of the example alone: one unparseable entry, then 10.0.0.0/8 (A). */
  const ShortExample: Entries := Entries(["x", "10.0.0.0/8"], ["bad", "10.0.0.0"], [8, 8], ["X", "A"])

  /** On ShortExample the loop as written keeps one record but maps 10.0.0.0 to 1: the index
      names a record past the end of the vectors, which a lookup of 10.1.2.3 with probe order
      [8] would read. The model's build maps it to 0, the record that exists. */
  lemma SkippedEntryIndexOutOfBounds()
    ensures Fits(ShortExample, ExampleParse)
    ensures var t := BuildAsWritten(ShortExample, ExampleParse, 2);
      && |t.mask| == 1 && IndexKey(0x0A00_0000) in t.index && t.index[IndexKey(0x0A00_0000)] == 1
      && !IndexInBounds(t)
    ensures Built(ShortExample, ExampleParse).index == map[IndexKey(0x0A00_0000) := 0]
  {
    var e, p := ShortExample, ExampleParse;
    assert p(e.ipAddrs[0]) == None && p(e.ipAddrs[1]) == Some(0x0A00_0000);
    assert Mask(8) == 0xFF00_0000;
    assert BuildAsWritten(e, p, 1) == Empty;
    assert BuildAsWritten(e, p, 2) == Append(Empty, "10.0.0.0/8", "10.0.0.0", 8, 0x0A00_0000, "A", 1);
    assert BuildPrefix(e, p, 1) == Empty;
    assert BuildPrefix(e, p, 2) == Append(Empty, "10.0.0.0/8", "10.0.0.0", 8, 0x0A00_0000, "A", 0);
  }

  /** One unparseable entry, then 10.0.0.0/8 (A) and 10.0.0.0/16 (B): two blocks with the same
      masked base. */
  const DuplicateExample: Entries := Entries(
    ["x", "10.0.0.0/8", "10.0.0.0/16"],
    ["bad", "10.0.0.0", "10.0.0.0"],
    [8, 8, 16],
    ["X", "A", "B"])

  /** The record vectors both builds produce on DuplicateExample, with the index the given map. */
  function DuplicateTable(index: map<IndexKey, int>): Table
  {
    Table(["10.0.0.0/8", "10.0.0.0/16"], ["10.0.0.0", "10.0.0.0"], [8, 16],
          [0x0A00_0000, 0x0A00_0000], ["A", "B"], [], index)
  }

  /** The loop as written keeps the first insert for 10.0.0.0, the input position 1 of A, which
      is the record position of B; the model's build keeps record position 0, that of A. */
  lemma DuplicateBuilds()
    ensures Fits(DuplicateExample, ExampleParse)
    ensures BuildAsWritten(DuplicateExample, ExampleParse, 3) == DuplicateTable(map[IndexKey(0x0A00_0000) := 1])
    ensures Built(DuplicateExample, ExampleParse) == DuplicateTable(map[IndexKey(0x0A00_0000) := 0])
  {
    var e, p := DuplicateExample, ExampleParse;
    assert p(e.ipAddrs[0]) == None && p(e.ipAddrs[1]) == Some(0x0A00_0000) && p(e.ipAddrs[2]) == Some(0x0A00_0000);
    assert Mask(8) == 0xFF00_0000 && Mask(16) == 0xFFFF_0000;
    var r1 := Append(Empty, "10.0.0.0/8", "10.0.0.0", 8, 0x0A00_0000, "A", 1);
    assert BuildAsWritten(e, p, 1) == Empty;
    assert BuildAsWritten(e, p, 2) == r1;
    assert BuildAsWritten(e, p, 3) == Append(r1, "10.0.0.0/16", "10.0.0.0", 16, 0x0A00_0000, "B", 2);
    var m1 := Append(Empty, "10.0.0.0/8", "10.0.0.0", 8, 0x0A00_0000, "A", 0);
    assert BuildPrefix(e, p, 1) == Empty;
    assert BuildPrefix(e, p, 2) == m1;
    assert BuildPrefix(e, p, 3) == Append(m1, "10.0.0.0/16", "10.0.0.0", 16, 0x0A00_0000, "B", 1);
  }

  /** With probe order [8], the DuplicateExample tables are consistent whenever the index names
      one of the two records, and 10.1.2.3 is accepted exactly when the index names A's record. */
  lemma DuplicateProbe(k: int)
    requires 0 <= k < 2
    ensures var t := DuplicateTable(map[IndexKey(0x0A00_0000) := k]).(uniqueMasks := [8]);
      && Consistent(t) && IndexInBounds(t)
      && Classify(t, "10.1.2.3", ExampleParse) == (if k == 0 then ("10.0.0.0/8", "A") else (NotFound, NotFound))
  {
    var t := DuplicateTable(map[IndexKey(0x0A00_0000) := k]).(uniqueMasks := [8]);
    assert Mask(8) == 0xFF00_0000 && Mask(16) == 0xFFFF_0000;
    assert Network(0x0A01_0203, 8) == 0x0A00_0000;
    assert ExampleParse("10.1.2.3") == Some(0x0A01_0203);
    if k == 0 {
      assert Accepts(t, 0x0A01_0203, 0);
    } else {
      assert !Accepts(t, 0x0A01_0203, 0);
      assert Probe(t, 0x0A01_0203, 1) == None;
    }
  }

  /** On DuplicateExample the loop as written maps 10.0.0.0 to 1, the record of the /16 block B:
      with probe order [8], looking up 10.1.2.3, which lies in A, finds the key but rejects the
      probe on the mask check, and answers NotFound; A is never returned for it. The model's
      build maps 10.0.0.0 to record 0 and answers A. */
  lemma SkippedEntryHidesBlock()
    ensures Fits(DuplicateExample, ExampleParse)
    ensures var t := BuildAsWritten(DuplicateExample, ExampleParse, 3).(uniqueMasks := [8]);
      && Consistent(t) && IndexInBounds(t)
      && Classify(t, "10.1.2.3", ExampleParse) == (NotFound, NotFound)
    ensures var t := Built(DuplicateExample, ExampleParse).(uniqueMasks := [8]);
      && Consistent(t) && IndexInBounds(t)
      && Classify(t, "10.1.2.3", ExampleParse) == ("10.0.0.0/8", "A")
  {
    DuplicateBuilds();
    DuplicateProbe(1);
    DuplicateProbe(0);
  }

  /** The dump does not depend on the index: the table built as written dumps exactly as the
      model's, so DumpOfBuilt describes the dump of the source's table too. */
  lemma DumpAsWritten(e: Entries, parse: Parser)
    requires Fits(e, parse)
    ensures Dump(BuildAsWritten(e, parse, |e.ipAddrs|)) == Dump(Built(e, parse))
  {
    SameRecords(e, parse, |e.ipAddrs|);
  }
}

=== FILE: masks.dfy ===
/** The IPv4 prefix-mask table of netblockr (CIDR prefix notation, section 3.1 of RFC 4632). */
module Masks {

  /** maskval_ipv4: the mask of prefix length m, as the 33-entry constant table lists it.
      The source indexes the table without a range check, so callers must keep m in [0, 32]. */
  function Mask(m: int): (r: bv32)
    requires 0 <= m <= 32
  {
    match m
    case 0 => 0x0000_0000
    case 1 => 0x8000_0000
    case 2 => 0xc000_0000
    case 3 => 0xe000_0000
    case 4 => 0xf000_0000
    case 5 => 0xf800_0000
    case 6 => 0xfc00_0000
    case 7 => 0xfe00_0000
    case 8 => 0xff00_0000
    case 9 => 0xff80_0000
    case 10 => 0xffc0_0000
    case 11 => 0xffe0_0000
    case 12 => 0xfff0_0000
    case 13 => 0xfff8_0000
    case 14 => 0xfffc_0000
    case 15 => 0xfffe_0000
    case 16 => 0xffff_0000
    case 17 => 0xffff_8000
    case 18 => 0xffff_c000
    case 19 => 0xffff_e000
    case 20 => 0xffff_f000
    case 21 => 0xffff_f800
    case 22 => 0xffff_fc00
    case 23 => 0xffff_fe00
    case 24 => 0xffff_ff00
    case 25 => 0xffff_ff80
    case 26 => 0xffff_ffc0
    case 27 => 0xffff_ffe0
    case 28 => 0xffff_fff0
    case 29 => 0xffff_fff8
    case 30 => 0xffff_fffc
    case 31 => 0xffff_fffe
    case 32 => 0xffff_ffff
  }

  /** The network of addr under prefix length m: its host bits cleared (binIP & mask). */
  function Network(addr: bv32, m: int): bv32
    requires 0 <= m <= 32
  {
    addr & Mask(m)
  }

  /** Bit b of x, counting from the least-significant end. */
  predicate BitSet(x: bv32, b: nat)
    requires b < 32
  {
    (x >> b) & 1 == 1
  }

  /** The prefix length is one of the 33 table positions, with that position's entry. The lemmas
      about a single prefix length call this to split on its value: with a symbolic shift amount
      the bit-vector solver does not find that case analysis itself. */
  lemma MaskCases(m: int)
    requires 0 <= m <= 32
    ensures
         (m == 0 && Mask(m) == 0x0000_0000)
      || (m == 1 && Mask(m) == 0x8000_0000)
      || (m == 2 && Mask(m) == 0xc000_0000)
      || (m == 3 && Mask(m) == 0xe000_0000)
      || (m == 4 && Mask(m) == 0xf000_0000)
      || (m == 5 && Mask(m) == 0xf800_0000)
      || (m == 6 && Mask(m) == 0xfc00_0000)
      || (m == 7 && Mask(m) == 0xfe00_0000)
      || (m == 8 && Mask(m) == 0xff00_0000)
      || (m == 9 && Mask(m) == 0xff80_0000)
      || (m == 10 && Mask(m) == 0xffc0_0000)
      || (m == 11 && Mask(m) == 0xffe0_0000)
      || (m == 12 && Mask(m) == 0xfff0_0000)
      || (m == 13 && Mask(m) == 0xfff8_0000)
      || (m == 14 && Mask(m) == 0xfffc_0000)
      || (m == 15 && Mask(m) == 0xfffe_0000)
      || (m == 16 && Mask(m) == 0xffff_0000)
      || (m == 17 && Mask(m) == 0xffff_8000)
      || (m == 18 && Mask(m) == 0xffff_c000)
      || (m == 19 && Mask(m) == 0xffff_e000)
      || (m == 20 && Mask(m) == 0xffff_f000)
      || (m == 21 && Mask(m) == 0xffff_f800)
      || (m == 22 && Mask(m) == 0xffff_fc00)
      || (m == 23 && Mask(m) == 0xffff_fe00)
      || (m == 24 && Mask(m) == 0xffff_ff00)
      || (m == 25 && Mask(m) == 0xffff_ff80)
      || (m == 26 && Mask(m) == 0xffff_ffc0)
      || (m == 27 && Mask(m) == 0xffff_ffe0)
      || (m == 28 && Mask(m) == 0xffff_fff0)
      || (m == 29 && Mask(m) == 0xffff_fff8)
      || (m == 30 && Mask(m) == 0xffff_fffc)
      || (m == 31 && Mask(m) == 0xffff_fffe)
      || (m == 32 && Mask(m) == 0xffff_ffff)
  {
  }

  /** Mask(m) has exactly the m most-significant bits set. */
  lemma MaskBits(m: int, b: nat)
    requires 0 <= m <= 32 && b < 32
    ensures BitSet(Mask(m), b) <==> 32 - m <= b
  {
    MaskCases(m);
  }

  /** The complement of Mask(m) is the all-ones word shifted right by m: the 32 - m host bits. */
  lemma MaskComplement(m: int)
    requires 0 <= m <= 32
    ensures Mask(m) == !(0xFFFF_FFFF >> m)
  {
    MaskCases(m);
  }

  /** The two ends of the table: no bits and all bits. */
  lemma MaskEnds()
    ensures Mask(0) == 0 && Mask(32) == 0xFFFF_FFFF
  {
  }

  /** Each entry extends the previous one by one bit on the most-significant side. */
  lemma MaskStep(m: int)
    requires 0 <= m < 32
    ensures Mask(m + 1) == Mask(m) | (1 << (31 - m))
    ensures Mask(m + 1) == (Mask(m) >> 1) | 0x8000_0000
  {
    MaskCases(m);
  }

  /** A shorter mask is contained in a longer one. */
  lemma {:induction false} MaskAbsorb(k: int, m: int)
    requires 0 <= k <= m <= 32
    ensures Mask(m) & Mask(k) == Mask(k)
  {
    if k > 0 {
      MaskAbsorb(k - 1, m - 1);
      MaskStep(k - 1);
      MaskStep(m - 1);
    }
  }

  /** Masking with a longer prefix first does not change the shorter-prefix network;
      with k == m, applying a mask twice is applying it once. */
  lemma MaskNested(a: bv32, k: int, m: int)
    requires 0 <= k <= m <= 32
    ensures Network(Network(a, m), k) == Network(a, k)
  {
    MaskAbsorb(k, m);
  }
}

=== FILE: nbtable.dfy ===
/** struct nbTable as an object: the four exported operations of netblockr that build it, set
    its probe order, dump it and look addresses up in it. Each record vector and the index are
    fields the operations reassign; State() reads them back as a Netblock.Table value. */
module NbTables {
  import opened Masks
  import opened Netblock
  import AsWritten

  class NbTable {
    var baseAndMask: seq<string>
    var baseAsString: seq<string>
    var mask: seq<int>
    var baseAsUint: seq<bv32>
    var description: seq<string>
    var uniqueMasks: seq<int>
    var index: map<IndexKey, int>

    /** The table as a value. */
    function State(): Table
      reads this
    {
      Table(baseAndMask, baseAsString, mask, baseAsUint, description, uniqueMasks, index)
    }

    /** What every operation keeps: the records are consistent and every index entry names a
        record whose masked base is its key. */
    predicate Valid()
      reads this
    {
      Consistent(State()) && IndexSound(State())
    }

    /** nbBuildNetblockTable with the index value corrected: one pass per input entry; an entry
        whose address does not parse is skipped (the source only warns), a parsed one is masked
        with its own mask and appended by AppendRecord, with the position of the appended
        record as the index value. BuildAsWritten stores the loop counter, as the source does. */
    constructor Build(baseAndMaskCol: seq<string>, ipAddrs: seq<string>, maskCol: seq<int>,
                      descriptionCol: seq<string>, parse: Parser)
      requires Fits(Entries(baseAndMaskCol, ipAddrs, maskCol, descriptionCol), parse)
      ensures State() == Built(Entries(baseAndMaskCol, ipAddrs, maskCol, descriptionCol), parse)
      ensures Valid()
    {
      baseAndMask, baseAsString, mask, baseAsUint, description := [], [], [], [], [];
      uniqueMasks, index := [], map[];
      new;
      ghost var e := Entries(baseAndMaskCol, ipAddrs, maskCol, descriptionCol);
      var i := 0;
      while i < |ipAddrs|
        invariant 0 <= i <= |ipAddrs|
        invariant State() == BuildPrefix(e, parse, i)
      {
        ghost var t0 := State();
        match parse(ipAddrs[i]) {
          case Some(addr) =>
            var binIP := Network(addr, maskCol[i]);
            AppendRecord(baseAndMaskCol[i], ipAddrs[i], maskCol[i], binIP, descriptionCol[i], |mask|);
            BuildStepParsed(e, parse, i, addr, t0, State());
          case None =>
            BuildStepSkipped(e, parse, i, t0);
        }
        i := i + 1;
      }
      BuildSound(e, parse);
    }

    /** nbBuildNetblockTable as written: the same loop, but the index value stored for a new key
        is i, the position of the entry in the input. The record vectors are always consistent;
        the table is valid when no entry was skipped, and after a skipped entry its index may
        name the wrong record or none. */
    constructor BuildAsWritten(baseAndMaskCol: seq<string>, ipAddrs: seq<string>, maskCol: seq<int>,
                               descriptionCol: seq<string>, parse: Parser)
      requires Fits(Entries(baseAndMaskCol, ipAddrs, maskCol, descriptionCol), parse)
      ensures State() == AsWritten.BuildAsWritten(Entries(baseAndMaskCol, ipAddrs, maskCol, descriptionCol),
                                                  parse, |ipAddrs|)
      ensures Consistent(State())
      ensures (forall i :: 0 <= i < |ipAddrs| ==> parse(ipAddrs[i]).Some?) ==> Valid()
    {
      baseAndMask, baseAsString, mask, baseAsUint, description := [], [], [], [], [];
      uniqueMasks, index := [], map[];
      new;
      ghost var e := Entries(baseAndMaskCol, ipAddrs, maskCol, descriptionCol);
      var i := 0;
      while i < |ipAddrs|
        invariant 0 <= i <= |ipAddrs|
        invariant State() == AsWritten.BuildAsWritten(e, parse, i)
      {
        ghost var t0 := State();
        match parse(ipAddrs[i]) {
          case Some(addr) =>
            var binIP := Network(addr, maskCol[i]);
            AppendRecord(baseAndMaskCol[i], ipAddrs[i], maskCol[i], binIP, descriptionCol[i], i);
            AsWritten.AsWrittenStepParsed(e, parse, i, addr, t0, State());
          case None =>
            AsWritten.AsWrittenStepSkipped(e, parse, i, t0);
        }
        i := i + 1;
      }
      AsWritten.SameRecords(e, parse, |ipAddrs|);
      BuildConsistent(e, parse, |ipAddrs|);
      if forall i :: 0 <= i < |ipAddrs| ==> parse(ipAddrs[i]).Some? {
        AsWritten.AsWrittenSoundWhenAllParse(e, parse);
      }
    }

    /** The body of the build loop for a parsed entry: push one value onto each of the five
        record vectors and insert (binIP, slot) into the index; std::map::insert leaves an
        existing key's value alone. With the new record's position as the slot and a base
        normalised under its mask, a valid table stays valid. */
    method AppendRecord(netBlock: string, text: string, m: int, binIP: bv32, desc: string, slot: int)
      modifies this
      ensures State() == Append(old(State()), netBlock, text, m, binIP, desc, slot)
      ensures old(Valid()) && slot == old(|mask|) && 0 <= m <= 32 && Network(binIP, m) == binIP ==> Valid()
    {
      ghost var t0 := State();
      baseAndMask, mask, baseAsString, baseAsUint, description :=
        baseAndMask + [netBlock], mask + [m], baseAsString + [text], baseAsUint + [binIP], description + [desc];
      if IndexKey(binIP) !in index {
        index := index[IndexKey(binIP) := slot];
      }
      if Consistent(t0) && IndexSound(t0) && slot == |t0.mask| && 0 <= m <= 32 && Network(binIP, m) == binIP {
        AppendSound(t0, netBlock, text, m, binIP, desc);
      }
    }

    /** nbSetMaskOrder: appends the given masks to the probe order; nothing else changes, so a
        consistent table stays consistent and a valid one valid. */
    method SetMaskOrder(masks: seq<int>)
      requires forall j :: 0 <= j < |masks| ==> 0 <= masks[j] <= 32
      modifies this
      ensures State() == old(State()).(uniqueMasks := old(uniqueMasks) + masks)
      ensures old(Consistent(State())) ==> Consistent(State())
      ensures old(Valid()) ==> Valid()
    {
      var i := 0;
      while i < |masks|
        invariant 0 <= i <= |masks|
        invariant State() == old(State()).(uniqueMasks := old(uniqueMasks) + masks[..i])
        invariant old(Consistent(State())) ==> Consistent(State())
        invariant old(Valid()) ==> Valid()
      {
        uniqueMasks := uniqueMasks + [masks[i]];
        i := i + 1;
      }
      assert masks[..i] == masks;
    }

    /** nbGetNetblockTable: the dump of the five record vectors, one row per record, each
        BaseInt already normalised under its own mask. */
    function GetNetblockTable(): (r: NetblockFrame)
      requires Consistent(State())
      reads this
      ensures r == Dump(State())
      ensures |r.netBlock| == |r.base| == |r.mask| == |r.baseInt| == |r.description|
      ensures forall k :: 0 <= k < |r.mask| ==> 0 <= r.mask[k] <= 32 && Network(r.baseInt[k], r.mask[k]) == r.baseInt[k]
    {
      Dump(State())
    }

    /** nbLookupIPaddrs: one row per address, each the NetBlock and Description LookupOne finds
        for it; the address column is echoed. */
    method LookupIPaddrs(ipAddrs: seq<string>, parse: Parser) returns (r: LookupFrame)
      requires Consistent(State()) && IndexInBounds(State())
      ensures r.ipAddr == ipAddrs
      ensures |r.netBlock| == |r.description| == |ipAddrs|
      ensures forall i :: 0 <= i < |ipAddrs| ==>
        (r.netBlock[i], r.description[i]) == Classify(State(), ipAddrs[i], parse)
    {
      var luBaseAndMask: seq<string> := [];
      var luDescription: seq<string> := [];
      var i := 0;
      while i < |ipAddrs|
        invariant 0 <= i <= |ipAddrs|
        invariant |luBaseAndMask| == |luDescription| == i
        invariant forall k :: 0 <= k < i ==>
          (luBaseAndMask[k], luDescription[k]) == Classify(State(), ipAddrs[k], parse)
      {
        var matchNetwork, matchDescription := LookupOne(ipAddrs[i], parse);
        luBaseAndMask := luBaseAndMask + [matchNetwork];
        luDescription := luDescription + [matchDescription];
        i := i + 1;
      }
      r := LookupFrame(ipAddrs, luBaseAndMask, luDescription);
    }

    /** The body of the lookup loop for one address: NotFound in both columns unless the address
        parses and some probe of the order is accepted (its masked address is a key naming a
        record stored with that very mask); the first accepted probe gives the answer. */
    method LookupOne(s: string, parse: Parser) returns (matchNetwork: string, matchDescription: string)
      requires Consistent(State()) && IndexInBounds(State())
      ensures (matchNetwork, matchDescription) == Classify(State(), s, parse)
    {
      matchNetwork, matchDescription := NotFound, NotFound;
      match parse(s) {
        case Some(binIP) =>
          var j := 0;
          while j < |uniqueMasks|
            invariant 0 <= j <= |uniqueMasks|
            invariant Probe(State(), binIP, j) == Probe(State(), binIP, 0)
            invariant matchNetwork == NotFound && matchDescription == NotFound
          {
            var tBinIP := Network(binIP, uniqueMasks[j]);
            if IndexKey(tBinIP) in index {
              var matchIndex := index[IndexKey(tBinIP)];
              if uniqueMasks[j] == mask[matchIndex] {
                matchNetwork, matchDescription := baseAndMask[matchIndex], description[matchIndex];
                assert Probe(State(), binIP, j) == Some(matchIndex);
                break;
              }
            }
            j := j + 1;
          }
        case None =>
      }
    }
  }

  /** A session as the source's callers run it: build the table as the source does, set the
      probe order, look the addresses up. Each row is the classification of its address by the
      as-written table with that order; the lookup needs the index to stay inside the vectors,
      which a skipped entry can break (AsWritten.SkippedEntryIndexOutOfBounds), and even then a
      row can name the wrong record (AsWritten.SkippedEntryMisdirectsLookup). */
  method SessionAsWritten(e: Entries, parse: Parser, order: seq<int>, addrs: seq<string>) returns (r: LookupFrame)
    requires Fits(e, parse)
    requires forall j :: 0 <= j < |order| ==> 0 <= order[j] <= 32
    requires IndexInBounds(AsWritten.BuildAsWritten(e, parse, |e.ipAddrs|))
    ensures Consistent(AsWritten.BuildAsWritten(e, parse, |e.ipAddrs|).(uniqueMasks := order))
    ensures r.ipAddr == addrs && |r.netBlock| == |r.description| == |addrs|
    ensures forall i :: 0 <= i < |addrs| ==>
      (r.netBlock[i], r.description[i]) == Classify(AsWritten.BuildAsWritten(e, parse, |e.ipAddrs|).(uniqueMasks := order), addrs[i], parse)
  {
    var t := new NbTable.BuildAsWritten(e.baseAndMask, e.ipAddrs, e.mask, e.description, parse);
    AsWritten.SameRecords(e, parse, |e.ipAddrs|);
    BuildRecords(e, parse, |e.ipAddrs|);
    t.SetMaskOrder(order);
    assert [] + order == order;
    r := t.LookupIPaddrs(addrs, parse);
  }

  /** The same session on the corrected build: every row is the classification of its address by
      the model's table with that order, and no precondition on the index is needed. */
  method Session(e: Entries, parse: Parser, order: seq<int>, addrs: seq<string>) returns (r: LookupFrame)
    requires Fits(e, parse)
    requires forall j :: 0 <= j < |order| ==> 0 <= order[j] <= 32
    ensures Consistent(Built(e, parse).(uniqueMasks := order)) && IndexSound(Built(e, parse).(uniqueMasks := order))
    ensures r.ipAddr == addrs && |r.netBlock| == |r.description| == |addrs|
    ensures forall i :: 0 <= i < |addrs| ==>
      (r.netBlock[i], r.description[i]) == Classify(Built(e, parse).(uniqueMasks := order), addrs[i], parse)
  {
    var t := new NbTable.Build(e.baseAndMask, e.ipAddrs, e.mask, e.description, parse);
    BuildRecords(e, parse, |e.ipAddrs|);
    t.SetMaskOrder(order);
    assert [] + order == order;
    r := t.LookupIPaddrs(addrs, parse);
  }
}

=== FILE: netblock.dfy ===
/** The netblock table of netblockr as a value: the five record vectors, the probe order and
    the exact-match index of struct nbTable, the build loop as a fold over the input columns,
    and the per-address classification done by the lookup loop. */
module Netblock {
  import opened Masks

  datatype Option<T> = None | Some(value: T)

  /** inet_pton(AF_INET, ...) followed by htonl: dotted-decimal text to a host-order address,
      or None when the text is not an IPv4 address. It is a libc call, so it is a parameter. */
  type Parser = string -> Option<bv32>

  /** The sentinel the lookup reports, in both columns, for a miss or an unparseable address. */
  const NotFound: string := "NotFound"

  /** The four input columns of nbBuildNetblockTable: label, address text, mask, description. */
  datatype Entries = Entries(
    baseAndMask: seq<string>,
    ipAddrs: seq<string>,
    mask: seq<int>,
    description: seq<string>)

  /** What the build loop reads: it runs over the address column, indexes the other three at
      the same position, and indexes the mask table with the mask of every parsed entry. */
  predicate Fits(e: Entries, parse: Parser)
  {
    && |e.baseAndMask| >= |e.ipAddrs|
    && |e.mask| >= |e.ipAddrs|
    && |e.description| >= |e.ipAddrs|
    && forall i :: 0 <= i < |e.ipAddrs| && parse(e.ipAddrs[i]).Some? ==> 0 <= e.mask[i] <= 32
  }

  /** The masked base address input i contributes, if its address text parses. */
  function Key(e: Entries, parse: Parser, i: int): Option<bv32>
    requires Fits(e, parse) && 0 <= i < |e.ipAddrs|
  {
    match parse(e.ipAddrs[i])
    case None => None
    case Some(addr) => Some(Network(addr, e.mask[i]))
  }

  /** Input i is the first input whose masked base is key. */
  predicate FirstWithKey(e: Entries, parse: Parser, i: int, key: bv32)
    requires Fits(e, parse) && 0 <= i < |e.ipAddrs|
  {
    Key(e, parse, i) == Some(key) && forall j :: 0 <= j < i ==> Key(e, parse, j) != Some(key)
  }

  /** The positions of the inputs whose address parses, in input order. */
  function ParsedPositions(e: Entries, parse: Parser, n: int): (ps: seq<int>)
    requires 0 <= n <= |e.ipAddrs|
    ensures forall k :: 0 <= k < |ps| ==> 0 <= ps[k] < n && parse(e.ipAddrs[ps[k]]).Some?
    ensures forall k, l :: 0 <= k < l < |ps| ==> ps[k] < ps[l]
    ensures forall i :: 0 <= i < n && parse(e.ipAddrs[i]).Some? ==> i in ps
  {
    if n == 0 then []
    else ParsedPositions(e, parse, n - 1) + (if parse(e.ipAddrs[n - 1]).Some? then [n - 1] else [])
  }

  /** A key of the index: the u_int masked base address. (Wrapped in a datatype because the
      verifier cannot tell bare bit-vector map keys apart.) */
  datatype IndexKey = IndexKey(bits: bv32)

  /** struct nbTable: five parallel record vectors, the probe order, and the index from a
      masked base address to the number the build stored for it. */
  datatype Table = Table(
    baseAndMask: seq<string>,
    baseAsString: seq<string>,
    mask: seq<int>,
    baseAsUint: seq<bv32>,
    description: seq<string>,
    uniqueMasks: seq<int>,
    index: map<IndexKey, int>)

  const Empty: Table := Table([], [], [], [], [], [], map[])

  /** What every table the build produces keeps: the record vectors have one length, every
      mask length is a valid table index, and every stored base has no bits outside its mask. */
  predicate Consistent(t: Table)
  {
    && |t.baseAndMask| == |t.baseAsString| == |t.mask| == |t.baseAsUint| == |t.description|
    && (forall k :: 0 <= k < |t.mask| ==> 0 <= t.mask[k] <= 32)
    && (forall k :: 0 <= k < |t.mask| ==> Network(t.baseAsUint[k], t.mask[k]) == t.baseAsUint[k])
    && (forall j :: 0 <= j < |t.uniqueMasks| ==> 0 <= t.uniqueMasks[j] <= 32)
  }

  /** Every index value names a record: what the lookup needs to stay inside the vectors. */
  predicate IndexInBounds(t: Table)
  {
    forall key :: key in t.index ==> 0 <= t.index[key] < |t.mask|
  }

  /** ... and the record it names has that key as its masked base. */
  predicate IndexSound(t: Table)
    requires Consistent(t)
  {
    IndexInBounds(t) && forall key :: key in t.index ==> t.baseAsUint[t.index[key]] == key.bits
  }

  /** The five push_backs and the index insert for one record with masked base `base`: the index
      gets (base, slot) only when base is a new key (std::map::insert keeps an existing entry). */
  function Append(t: Table, netBlock: string, text: string, m: int, base: bv32, desc: string, slot: int): Table
  {
    t.(baseAndMask := t.baseAndMask + [netBlock],
       baseAsString := t.baseAsString + [text],
       mask := t.mask + [m],
       baseAsUint := t.baseAsUint + [base],
       description := t.description + [desc],
       index := if IndexKey(base) in t.index then t.index else t.index[IndexKey(base) := slot])
  }

  /** Appending a record whose base is normalised under its own mask, with the new record's
      position as the slot, keeps the table consistent and its index sound. */
  lemma AppendSound(t0: Table, netBlock: string, text: string, m: int, base: bv32, desc: string)
    requires Consistent(t0) && IndexSound(t0)
    requires 0 <= m <= 32 && Network(base, m) == base
    ensures var t := Append(t0, netBlock, text, m, base, desc, |t0.mask|);
      Consistent(t) && IndexSound(t)
  {
    var t := Append(t0, netBlock, text, m, base, desc, |t0.mask|);
    forall k | 0 <= k < |t.mask|
      ensures 0 <= t.mask[k] <= 32 && Network(t.baseAsUint[k], t.mask[k]) == t.baseAsUint[k]
    {
      if k < |t0.mask| {
        assert t.mask[k] == t0.mask[k] && t.baseAsUint[k] == t0.baseAsUint[k];
      }
    }
    forall key | key in t.index
      ensures 0 <= t.index[key] < |t.mask| && t.baseAsUint[t.index[key]] == key.bits
    {
      if key in t0.index {
        assert t.baseAsUint[t0.index[key]] == t0.baseAsUint[t0.index[key]];
      }
    }
  }

  /** One pass of the build loop for input i: an unparseable address is skipped; a parsed one is
      masked with the entry's own mask and appended. The source stores slot i, the input
      position; the model stores the position of the new record (see AsWritten for why). */
  function AddEntry(t: Table, e: Entries, parse: Parser, i: int, slot: int): Table
    requires Fits(e, parse) && 0 <= i < |e.ipAddrs|
  {
    match parse(e.ipAddrs[i])
    case None => t
    case Some(addr) =>
      Append(t, e.baseAndMask[i], e.ipAddrs[i], e.mask[i], Network(addr, e.mask[i]), e.description[i], slot)
  }

  /** The table after the first n passes of nbBuildNetblockTable's loop, each new key naming the
      record just appended. */
  function BuildPrefix(e: Entries, parse: Parser, n: int): Table
    requires Fits(e, parse) && 0 <= n <= |e.ipAddrs|
  {
    if n == 0 then Empty
    else
      var t := BuildPrefix(e, parse, n - 1);
      AddEntry(t, e, parse, n - 1, |t.mask|)
  }

  /** One more pass of the loop over a parsed entry appends its record, masked with its own
      mask, with the next record position as the slot. */
  lemma BuildStepParsed(e: Entries, parse: Parser, i: int, addr: bv32, t0: Table, t: Table)
    requires Fits(e, parse) && 0 <= i < |e.ipAddrs| && parse(e.ipAddrs[i]) == Some(addr)
    requires t0 == BuildPrefix(e, parse, i)
    requires t == Append(t0, e.baseAndMask[i], e.ipAddrs[i], e.mask[i], Network(addr, e.mask[i]), e.description[i], |t0.mask|)
    ensures t == BuildPrefix(e, parse, i + 1)
  {
  }

  /** One more pass of the loop over an entry whose address does not parse changes nothing. */
  lemma BuildStepSkipped(e: Entries, parse: Parser, i: int, t0: Table)
    requires Fits(e, parse) && 0 <= i < |e.ipAddrs| && parse(e.ipAddrs[i]).None?
    requires t0 == BuildPrefix(e, parse, i)
    ensures t0 == BuildPrefix(e, parse, i + 1)
  {
  }

  /** The table nbBuildNetblockTable returns. */
  function Built(e: Entries, parse: Parser): Table
    requires Fits(e, parse)
  {
    BuildPrefix(e, parse, |e.ipAddrs|)
  }

  /** Record k of t holds input i: its label, address text, mask and description, and as its
      base the parsed address masked by the entry's own mask. */
  predicate RecordIs(t: Table, k: int, e: Entries, parse: Parser, i: int)
    requires Fits(e, parse) && 0 <= i < |e.ipAddrs|
  {
    && 0 <= k < |t.baseAndMask| && k < |t.baseAsString| && k < |t.mask|
    && k < |t.baseAsUint| && k < |t.description|
    && t.baseAndMask[k] == e.baseAndMask[i]
    && t.baseAsString[k] == e.ipAddrs[i]
    && t.mask[k] == e.mask[i]
    && Key(e, parse, i) == Some(t.baseAsUint[k])
    && t.description[k] == e.description[i]
  }

  /** Records are the parsed inputs, in input order; an unparseable input adds nothing, and no
      probe order is set yet. */
  lemma {:induction false} BuildRecords(e: Entries, parse: Parser, n: int)
    requires Fits(e, parse) && 0 <= n <= |e.ipAddrs|
    ensures var t, ps := BuildPrefix(e, parse, n), ParsedPositions(e, parse, n);
      |t.baseAndMask| == |t.baseAsString| == |t.mask| == |t.baseAsUint| == |t.description| == |ps|
    ensures BuildPrefix(e, parse, n).uniqueMasks == []
    ensures var t, ps := BuildPrefix(e, parse, n), ParsedPositions(e, parse, n);
      forall k :: 0 <= k < |ps| ==> RecordIs(t, k, e, parse, ps[k])
  {
    if n > 0 {
      BuildRecords(e, parse, n - 1);
      var t0, ps0 := BuildPrefix(e, parse, n - 1), ParsedPositions(e, parse, n - 1);
      var t, ps := BuildPrefix(e, parse, n), ParsedPositions(e, parse, n);
      assert t == AddEntry(t0, e, parse, n - 1, |t0.mask|);
      if parse(e.ipAddrs[n - 1]).Some? {
        assert ps == ps0 + [n - 1];
        forall k | 0 <= k < |ps|
          ensures RecordIs(t, k, e, parse, ps[k])
        {
          if k < |ps0| {
            assert RecordIs(t0, k, e, parse, ps0[k]);
          }
        }
      } else {
        assert t == t0 && ps == ps0;
      }
    }
  }

  /** The build establishes the record invariant: in particular every stored base is already
      normalised, so masking it again with its own mask changes nothing. */
  lemma BuildConsistent(e: Entries, parse: Parser, n: int)
    requires Fits(e, parse) && 0 <= n <= |e.ipAddrs|
    ensures Consistent(BuildPrefix(e, parse, n))
  {
    var t, ps := BuildPrefix(e, parse, n), ParsedPositions(e, parse, n);
    BuildRecords(e, parse, n);
    forall k | 0 <= k < |t.mask|
      ensures 0 <= t.mask[k] <= 32 && Network(t.baseAsUint[k], t.mask[k]) == t.baseAsUint[k]
    {
      assert RecordIs(t, k, e, parse, ps[k]);
      MaskNested(parse(e.ipAddrs[ps[k]]).value, e.mask[ps[k]], e.mask[ps[k]]);
    }
  }

  /** Every index entry names a record holding its key. */
  predicate NamesItsKey(t: Table)
  {
    forall key :: key in t.index ==> 0 <= t.index[key] < |t.baseAsUint| && t.baseAsUint[t.index[key]] == key.bits
  }

  /** No record before the one an index entry names holds its key. */
  predicate NamesFirst(t: Table)
    requires NamesItsKey(t)
  {
    forall key, k :: key in t.index && 0 <= k < t.index[key] ==> t.baseAsUint[k] != key.bits
  }

  /** Every stored masked base is a key of the index. */
  predicate CoversBases(t: Table)
  {
    forall k :: 0 <= k < |t.baseAsUint| ==> IndexKey(t.baseAsUint[k]) in t.index
  }

  /** The index names, for every stored masked base, the first record holding it, and nothing
      else: what the lookup relies on when it reads the record an index entry names. */
  predicate IndexFirstRecord(t: Table)
  {
    NamesItsKey(t) && NamesFirst(t) && CoversBases(t)
  }

  /** Appending a record at the end keeps IndexFirstRecord. */
  lemma FirstRecordStep(t0: Table, netBlock: string, text: string, m: int, base: bv32, desc: string)
    requires IndexFirstRecord(t0) && |t0.mask| == |t0.baseAsUint|
    ensures var t := Append(t0, netBlock, text, m, base, desc, |t0.mask|);
      IndexFirstRecord(t) && |t.mask| == |t.baseAsUint|
  {
    var t := Append(t0, netBlock, text, m, base, desc, |t0.mask|);
    NamedStep(t0, t, base);
    FirstStep(t0, t, base);
    CoveredStep(t0, t, base);
  }

  // The three parts of FirstRecordStep, each about the two vectors and the index only.

  lemma NamedStep(t0: Table, t: Table, base: bv32)
    requires NamesItsKey(t0) && |t0.mask| == |t0.baseAsUint|
    requires t.baseAsUint == t0.baseAsUint + [base]
    requires t.index == if IndexKey(base) in t0.index then t0.index else t0.index[IndexKey(base) := |t0.mask|]
    ensures NamesItsKey(t)
  {
    forall key | key in t.index
      ensures 0 <= t.index[key] < |t.baseAsUint| && t.baseAsUint[t.index[key]] == key.bits
    {
      if key in t0.index {
        assert t.baseAsUint[t0.index[key]] == t0.baseAsUint[t0.index[key]];
      }
    }
  }

  lemma FirstStep(t0: Table, t: Table, base: bv32)
    requires NamesItsKey(t0) && NamesFirst(t0) && CoversBases(t0) && |t0.mask| == |t0.baseAsUint|
    requires NamesItsKey(t)
    requires t.baseAsUint == t0.baseAsUint + [base]
    requires t.index == if IndexKey(base) in t0.index then t0.index else t0.index[IndexKey(base) := |t0.mask|]
    ensures NamesFirst(t)
  {
    forall key, k | key in t.index && 0 <= k < t.index[key]
      ensures t.baseAsUint[k] != key.bits
    {
      if key in t0.index {
        assert t.baseAsUint[k] == t0.baseAsUint[k];
      } else {
        assert IndexKey(t0.baseAsUint[k]) in t0.index;
      }
    }
  }

  lemma CoveredStep(t0: Table, t: Table, base: bv32)
    requires CoversBases(t0)
    requires t.baseAsUint == t0.baseAsUint + [base]
    requires t.index.Keys == t0.index.Keys + {IndexKey(base)}
    ensures CoversBases(t)
  {
    forall k | 0 <= k < |t.baseAsUint|
      ensures IndexKey(t.baseAsUint[k]) in t.index
    {
      if k < |t0.baseAsUint| {
        assert t.baseAsUint[k] == t0.baseAsUint[k];
      }
    }
  }

  /** The index the build yields names, for each distinct masked base, its first record: the
      first input with that base wins, and later duplicates, whatever their mask, stay in the
      vectors but are never named by the index. */
  lemma {:induction false} BuildIndex(e: Entries, parse: Parser, n: int)
    requires Fits(e, parse) && 0 <= n <= |e.ipAddrs|
    ensures IndexFirstRecord(BuildPrefix(e, parse, n))
    ensures |BuildPrefix(e, parse, n).mask| == |BuildPrefix(e, parse, n).baseAsUint|
  {
    if n > 0 {
      var t0 := BuildPrefix(e, parse, n - 1);
      BuildIndex(e, parse, n - 1);
      match parse(e.ipAddrs[n - 1])
      case None =>
      case Some(addr) =>
        var i := n - 1;
        FirstRecordStep(t0, e.baseAndMask[i], e.ipAddrs[i], e.mask[i], Network(addr, e.mask[i]), e.description[i]);
    }
  }

  /** So the built table is consistent and every index entry names a record with its key. */
  lemma BuildSound(e: Entries, parse: Parser)
    requires Fits(e, parse)
    ensures Consistent(Built(e, parse)) && IndexSound(Built(e, parse))
  {
    BuildConsistent(e, parse, |e.ipAddrs|);
    BuildIndex(e, parse, |e.ipAddrs|);
  }

  /** The dump of nbGetNetblockTable: columns NetBlock, Base, Mask, BaseInt, Description. */
  datatype NetblockFrame = NetblockFrame(
    netBlock: seq<string>,
    base: seq<string>,
    mask: seq<int>,
    baseInt: seq<bv32>,
    description: seq<string>)

  /** The dump is a projection of the record vectors. */
  function Dump(t: Table): NetblockFrame
  {
    NetblockFrame(t.baseAndMask, t.baseAsString, t.mask, t.baseAsUint, t.description)
  }

  /** Row k of the dump shows input i, with BaseInt the masked base. */
  predicate RowIs(d: NetblockFrame, k: int, e: Entries, parse: Parser, i: int)
    requires Fits(e, parse) && 0 <= i < |e.ipAddrs|
  {
    && 0 <= k < |d.netBlock| && k < |d.base| && k < |d.mask| && k < |d.baseInt| && k < |d.description|
    && d.netBlock[k] == e.baseAndMask[i]
    && d.base[k] == e.ipAddrs[i]
    && d.mask[k] == e.mask[i]
    && Some(d.baseInt[k]) == Key(e, parse, i)
    && d.description[k] == e.description[i]
  }

  /** The dump of a freshly built table has one row per parsed input, in input order, echoing
      the inputs with BaseInt the masked base. */
  lemma DumpOfBuilt(e: Entries, parse: Parser)
    requires Fits(e, parse)
    ensures var d, ps := Dump(Built(e, parse)), ParsedPositions(e, parse, |e.ipAddrs|);
      && |d.netBlock| == |d.base| == |d.mask| == |d.baseInt| == |d.description| == |ps|
      && forall k :: 0 <= k < |ps| ==> RowIs(d, k, e, parse, ps[k])
  {
    var n, t := |e.ipAddrs|, Built(e, parse);
    var d, ps := Dump(t), ParsedPositions(e, parse, n);
    BuildRecords(e, parse, n);
    forall k | 0 <= k < |ps|
      ensures RowIs(d, k, e, parse, ps[k])
    {
      assert RecordIs(t, k, e, parse, ps[k]);
    }
  }

  /** When every address parses, row k of the dump is input k. */
  lemma DumpOfBuiltAllParsed(e: Entries, parse: Parser)
    requires Fits(e, parse)
    requires forall i :: 0 <= i < |e.ipAddrs| ==> parse(e.ipAddrs[i]).Some?
    ensures var d := Dump(Built(e, parse));
      |d.netBlock| == |e.ipAddrs| && forall k :: 0 <= k < |e.ipAddrs| ==> RowIs(d, k, e, parse, k)
  {
    var d, ps := Dump(Built(e, parse)), ParsedPositions(e, parse, |e.ipAddrs|);
    DumpOfBuilt(e, parse);
    AllParsedPositions(e, parse, |e.ipAddrs|);
    forall k | 0 <= k < |e.ipAddrs|
      ensures RowIs(d, k, e, parse, k)
    {
      assert ps[k] == k && RowIs(d, k, e, parse, ps[k]);
    }
  }

  /** With every address parsed, the parsed positions are 0, 1, ..., n - 1. */
  lemma {:induction false} AllParsedPositions(e: Entries, parse: Parser, n: int)
    requires 0 <= n <= |e.ipAddrs|
    requires forall i :: 0 <= i < n ==> parse(e.ipAddrs[i]).Some?
    ensures |ParsedPositions(e, parse, n)| == n
    ensures forall k :: 0 <= k < n ==> ParsedPositions(e, parse, n)[k] == k
  {
    if n > 0 {
      AllParsedPositions(e, parse, n - 1);
      var ps0, ps := ParsedPositions(e, parse, n - 1), ParsedPositions(e, parse, n);
      assert ps == ps0 + [n - 1];
      forall k | 0 <= k < n
        ensures ps[k] == k
      {
        if k < n - 1 {
          assert ps[k] == ps0[k];
        }
      }
    }
  }

  /** The probe at position j of the order is accepted: the masked address is a key, and the
      record it names was stored with that very mask. */
  predicate Accepts(t: Table, addr: bv32, j: int)
    requires Consistent(t) && IndexInBounds(t) && 0 <= j < |t.uniqueMasks|
  {
    var key := IndexKey(Network(addr, t.uniqueMasks[j]));
    key in t.index && t.mask[t.index[key]] == t.uniqueMasks[j]
  }

  /** The record named by an accepted probe at position j. */
  function ProbeTarget(t: Table, addr: bv32, j: int): int
    requires Consistent(t) && IndexInBounds(t) && 0 <= j < |t.uniqueMasks|
    requires Accepts(t, addr, j)
  {
    t.index[IndexKey(Network(addr, t.uniqueMasks[j]))]
  }

  /** The record the probe loop of nbLookupIPaddrs settles on, trying the masks of the probe
      order from position j on. */
  function Probe(t: Table, addr: bv32, j: int): (r: Option<int>)
    requires Consistent(t) && IndexInBounds(t) && 0 <= j <= |t.uniqueMasks|
    ensures r.Some? ==> 0 <= r.value < |t.mask|
    decreases |t.uniqueMasks| - j
  {
    if j == |t.uniqueMasks| then None
    else if Accepts(t, addr, j) then Some(ProbeTarget(t, addr, j))
    else Probe(t, addr, j + 1)
  }

  /** Position q is the first accepted probe of the order at or after position j. */
  predicate FirstAccepted(t: Table, addr: bv32, j: int, q: int)
    requires Consistent(t) && IndexInBounds(t) && 0 <= j <= q < |t.uniqueMasks|
  {
    Accepts(t, addr, q) && forall p :: j <= p < q ==> !Accepts(t, addr, p)
  }

  /** The probe loop finds nothing exactly when no probe from position j on is accepted: a key
      found with another mask does not end the search. */
  lemma {:induction false} ProbeNone(t: Table, addr: bv32, j: int)
    requires Consistent(t) && IndexInBounds(t) && 0 <= j <= |t.uniqueMasks|
    ensures Probe(t, addr, j).None? <==> forall q :: j <= q < |t.uniqueMasks| ==> !Accepts(t, addr, q)
    decreases |t.uniqueMasks| - j
  {
    if j < |t.uniqueMasks| {
      ProbeNone(t, addr, j + 1);
    }
  }

  /** The first accepted probe decides: the loop returns the record it names. */
  lemma {:induction false} ProbeFirst(t: Table, addr: bv32, j: int, q: int)
    requires Consistent(t) && IndexInBounds(t) && 0 <= j <= q < |t.uniqueMasks|
    requires FirstAccepted(t, addr, j, q)
    ensures Probe(t, addr, j) == Some(ProbeTarget(t, addr, q))
    decreases q - j
  {
    if j < q {
      assert !Accepts(t, addr, j);
      ProbeFirst(t, addr, j + 1, q);
    }
  }

  /** Whatever the probe loop returns comes from the first accepted probe. */
  lemma {:induction false} ProbeSome(t: Table, addr: bv32, j: int) returns (q: int)
    requires Consistent(t) && IndexInBounds(t) && 0 <= j <= |t.uniqueMasks|
    requires Probe(t, addr, j).Some?
    ensures j <= q < |t.uniqueMasks| && FirstAccepted(t, addr, j, q)
    ensures Probe(t, addr, j).value == ProbeTarget(t, addr, q)
    ensures t.mask[Probe(t, addr, j).value] == t.uniqueMasks[q]
    decreases |t.uniqueMasks| - j
  {
    if Accepts(t, addr, j) {
      q := j;
    } else {
      q := ProbeSome(t, addr, j + 1);
    }
  }

  /** With a sound index, the record the probe loop returns is a block containing the address,
      and it is the record its own key names: a record shadowed in the index is never returned. */
  lemma ProbeInBlock(t: Table, addr: bv32, j: int)
    requires Consistent(t) && IndexSound(t) && 0 <= j <= |t.uniqueMasks|
    requires Probe(t, addr, j).Some?
    ensures var k := Probe(t, addr, j).value;
      && Network(addr, t.mask[k]) == t.baseAsUint[k]
      && IndexKey(t.baseAsUint[k]) in t.index && t.index[IndexKey(t.baseAsUint[k])] == k
  {
    var q := ProbeSome(t, addr, j);
  }

  /** A record the lookup can reach: its own key names it in the index. */
  predicate Reachable(t: Table, k: int)
    requires 0 <= k < |t.baseAsUint|
  {
    IndexKey(t.baseAsUint[k]) in t.index && t.index[IndexKey(t.baseAsUint[k])] == k
  }

  /** The probe order lists masks strictly from the most specific to the least specific. */
  predicate MostSpecificFirst(order: seq<int>)
  {
    forall p, q :: 0 <= p < q < |order| ==> order[p] > order[q]
  }

  /** When the probe order is most-specific-first, the first accepted probe is the longest prefix
      match among the reachable records whose mask the order lists: some record is found whenever
      one of those contains the address, and none of them has a longer mask than the one found. */
  lemma LongestMatchWhenMostSpecificFirst(t: Table, addr: bv32, k: int, q: int)
    requires Consistent(t) && IndexSound(t) && MostSpecificFirst(t.uniqueMasks)
    requires 0 <= k < |t.mask| && Reachable(t, k) && Network(addr, t.mask[k]) == t.baseAsUint[k]
    requires 0 <= q < |t.uniqueMasks| && t.uniqueMasks[q] == t.mask[k]
    ensures Probe(t, addr, 0).Some?
    ensures t.mask[Probe(t, addr, 0).value] >= t.mask[k]
  {
    assert Accepts(t, addr, q);
    ProbeNone(t, addr, 0);
    var q' := ProbeSome(t, addr, 0);
    assert q' <= q;
  }

  /** One row of the lookup result: (NetBlock, Description) for one address. */
  function Classify(t: Table, s: string, parse: Parser): (string, string)
    requires Consistent(t) && IndexInBounds(t)
  {
    match parse(s)
    case None => (NotFound, NotFound)
    case Some(addr) =>
      match Probe(t, addr, 0)
      case None => (NotFound, NotFound)
      case Some(k) => (t.baseAndMask[k], t.description[k])
  }

  /** The lookup result: the input column echoed, and the two result columns. */
  datatype LookupFrame = LookupFrame(ipAddr: seq<string>, netBlock: seq<string>, description: seq<string>)
}
